=== FILE: README.md ===
# Podcast RAG retrieval core in Dafny

This project models the retrieval core of `PodcastRAG`, the class that turns
podcast transcripts into a searchable vector collection and builds prompts from
what it retrieves. It does this in four stages:

- **Chunking.** A transcript is read in text mode, which turns `"\r\n"` and
  `'\r'` into `'\n'`. It is then split into lines on `'\n'`. A window of 5 lines
  slides over the lines with stride `5 // 2 = 2`, and every window is joined
  back with `'\n'`.
- **Corpus assembly.** Only directory entries whose name ends in `.txt` count.
  Their chunks are concatenated in listing order.
- **Ingestion.** Ingestion is guarded: if `num_entities` is positive,
  nothing happens. The model's `num_entities` counts every inserted row,
  flushed or not. Otherwise the chunks are cut into batches of 100. Each batch
  is encoded and inserted with the explicit ids `range(i, min(i+100, N))`. One
  flush follows the last batch. `_setup_collection` reuses an existing
  collection rather than creating it again.
- **Prompt assembly.** `get_relevant_context` maps the search hits to their
  texts, in hit order. `augment_prompt` places those texts, joined by
  `"\n---\n"`, between a fixed header and a trailer that ends with the query.

The model is written as pure functions over immutable data. The pieces are:

- **Collection.** A sequence of (id, text, vector) rows plus a `flushed` flag.
- **Calls.** The calls a load makes on a collection (`Insert`, `Flush`) are
  data, so a load returns both the final collection and the exact list of calls.
- **Encoder.** The sentence encoder is any function from texts to vectors that
  returns one vector per text.
- **Search.** The similarity search is an oracle passed in by the caller.

Modules:

| module | contents |
|---|---|
| `Seqs` | Python's `range(lo, hi, step)` and `min` |
| `Text` | `str.split`, `str.join`, `str.endswith`, their inverse laws, and the text-mode newline translation of `f.read()` |
| `Chunker` | the sliding-window chunker, plus the transcriber's file format |
| `Corpus` | the `.txt` filter and chunk accumulation |
| `Batching` | batches of 100 and their ids |
| `VectorIndex` | collections, the store of named collections, insert and flush |
| `Ingestion` | `_load_transcripts`, both as a function and as the source's loops, and `__init__` over the database of named collections |
| `Query` | `get_relevant_context` and `augment_prompt` |

### Behaviours of the code worth knowing

- **Short transcripts.** Every start 0, 2, 4, … below n makes a window, so a
  transcript of n lines gives ceil(n/2) chunks, even when n < 5.
- **Empty files.** `"".split('\n') == ['']`, so an empty file gives one empty
  chunk.
- **Interrupted loads.** Suppose `num_entities` counts the rows a load
  inserted before it was cut short, flushed or not, as the model's
  `VectorIndex.NumEntities` does. Then such a load is never completed: the
  batches it inserted leave a non-empty collection, and every later load
  skips it. `Ingestion.PartialLoadNeverResumed` states this for one load, and
  `Ingestion.ReopenAfterPartialLoad` for the next instance, which reopens
  the collection from the database. If the database counts only flushed
  rows, a load cut short before the flush leaves `num_entities` at 0, and
  the next instance loads everything again on top of the unflushed rows.

## Model

| member | source | states |
|---|---|---|
| `Seqs.Range` | podcast_rag.py:63 | `range(lo, hi, step)` is empty exactly when lo >= hi. It starts at lo, and every value lies in [lo, hi). With step 1 the values are exactly lo, lo+1, …, hi-1. |
| `Seqs.RangeLength` | podcast_rag.py:68 | A range has ceil((hi-lo)/step) values: the last one lies within one step below hi. |
| `Seqs.RangeAt` | podcast_rag.py:63 | The k-th value of a range is lo + k*step. |
| `Seqs.RangeNext` | podcast_rag.py:68 | Neighbouring values of a range are exactly one step apart. |
| `Text.Split` | podcast_rag.py:60 | `s.split('\n')` always has at least one piece, and no piece contains the separator. |
| `Text.SplitCount` | podcast_rag.py:60 | Splitting gives exactly one more piece than the separator occurs in the text. |
| `Text.JoinSplit` | podcast_rag.py:60-62 | Joining the pieces of a split with the separator gives back the original text. |
| `Text.SplitJoin` | podcast_rag.py:62 | Splitting a join of separator-free parts gives back exactly those parts. |
| `Text.SplitTrailingSep` | podcast_rag.py:60 | A text ending in the separator splits into the pieces of the text without it, plus one empty piece. |
| `Text.JoinAppend` | podcast_rag.py:102 | Joining two non-empty lists of parts is joining each, with one separator between. |
| `Text.JoinLength` | podcast_rag.py:102 | A join's length is the total length of the parts plus one separator per neighbouring pair. |
| `Text.EndsWithIff` | podcast_rag.py:55 | `s.endswith(suffix)` holds exactly when s is some string followed by the suffix. |
| `Chunker.ChunkTranscript` | podcast_rag.py:60-63 | The chunks of one file's text: ceil((m+1)/2) of them for m newlines (`Chunker.ChunkCount`), chunk k joining the lines of window k (`Chunker.ChunkContents`), each splitting back into those lines (`Chunker.ChunkRecoversWindow`). |
| `Text.UniversalNewlines` | podcast_rag.py:57-58 | The text `f.read()` returns in text mode holds no `'\r'`: every `"\r\n"` and lone `'\r'` of the file has become `'\n'`. |
| `Text.UniversalNewlinesNoCR` | podcast_rag.py:57-58 | A file without `'\r'` is read back exactly as it is. |
| `Text.UniversalNewlinesIdempotent` | podcast_rag.py:57-58 | Translating an already read text changes nothing. |
| `Text.UniversalNewlinesLine` | podcast_rag.py:57-58 | A line ended by `"\r\n"`, a lone `'\r'` or `'\n'` is read as that line ended by `'\n'`, followed by the reading of the rest. |
| `Chunker.ChunksFrom` | podcast_rag.py:62-63 | The comprehension over `range(i, n, 2)` yields ceil((n-i)/2) chunks, none when i >= n. |
| `Chunker.ChunkAt` | podcast_rag.py:62-63 | Chunk k of the windows from line i is the `'\n'`-join of the window that starts at line i+2k, and that start is below n. |
| `Chunker.ChunkLines` | podcast_rag.py:61-63 | n lines give ceil(n/2) chunks. |
| `Chunker.ChunkContents` | podcast_rag.py:61-63 | Chunk k is the `'\n'`-join of the window that starts at line 2k. |
| `Chunker.ChunkCount` | podcast_rag.py:60-63 | A text with m newlines yields ceil((m+1)/2) chunks, which is never zero. |
| `Chunker.WindowSpan` | podcast_rag.py:62 | The window of every chunk spans between 1 and 5 lines: lines 2k up to, but excluding, min(2k+5, n). |
| `Chunker.Overlap` | podcast_rag.py:62-63 | Chunks k and k+1 share lines 2k+2 up to min(2k+5, n). Chunk k has at least 3 lines, and exactly 3 are shared when chunk k is full width. |
| `Chunker.Coverage` | podcast_rag.py:62-63 | Line j lies in chunk j/2, at position j mod 2, so no line is dropped. |
| `Chunker.ChunkRecoversWindow` | podcast_rag.py:60-62 | Splitting chunk k on `'\n'` gives back exactly the lines of its window. |
| `Chunker.EmptyTranscript` | podcast_rag.py:60-63 | An empty file yields exactly one chunk, the empty string. |
| `Chunker.TranscriberOutputJoin` | podcast_transriber.py:46-47 | A file written one line per utterance, each followed by `'\n'`, is the utterances joined by `'\n'` plus a trailing `'\n'`. |
| `Chunker.TranscriberOutputLines` | podcast_transriber.py:46-47 | When no utterance contains `'\n'` or `'\r'`, the file reads back unchanged in text mode. It splits into its utterances plus one empty last line, so u utterances yield ceil((u+1)/2) chunks. |
| `Corpus.ReadText` | podcast_rag.py:57-58 | The text `f.read()` hands to the chunker holds no `'\r'`; it is the file's contents after the newline translation `Text.UniversalNewlines`. |
| `Corpus.EntryChunks` | podcast_rag.py:55-63 | The chunks of one directory entry: at least one exactly when the name ends in `.txt` (`Corpus.EntryChunksNonEmpty`), ceil((m+1)/2) for m newlines in the read text (`Chunker.ChunkCount` on `Corpus.ReadText`). |
| `Corpus.CorpusChunks` | podcast_rag.py:54-64 | The chunks of the whole listing: entry after entry (`Corpus.CorpusAppend`, `Corpus.CorpusSnoc`, `Corpus.Contiguous`), totalling the per-file counts (`Corpus.CorpusSize`), with non-`.txt` entries contributing nothing (`Corpus.OnlyTranscriptsCount`). |
| `Corpus.EntryChunksNonEmpty` | podcast_rag.py:55-64 | An entry contributes at least one chunk exactly when its name ends in `.txt`, even when the file is empty. |
| `Corpus.Transcripts` | podcast_rag.py:54-55 | The filtered listing holds only `.txt` entries of the listing, and every `.txt` entry of the listing is kept. |
| `Corpus.TranscriptsAppend` | podcast_rag.py:54-55 | The filter keeps listing order: filtering two listings one after the other gives their transcripts one after the other. |
| `Corpus.TranscriptsOne` | podcast_rag.py:55 | A one-entry listing keeps its entry exactly when the name ends in `.txt`. |
| `Corpus.TranscriberFileChunks` | podcast_rag.py:55-64 | A `.txt` file the transcriber wrote with u single-line utterances contributes ceil((u+1)/2) chunks once read. |
| `Corpus.CorpusAppend` | podcast_rag.py:54-64 | The chunks of two listings read one after the other are their chunks one after the other. |
| `Corpus.CorpusSnoc` | podcast_rag.py:64 | One more entry appends exactly that entry's chunks (`chunks.extend`). |
| `Corpus.CorpusSize` | podcast_rag.py:54-64 | The total number of chunks is the sum of the per-file counts, each computed from the file's newline count alone. |
| `Corpus.OnlyTranscriptsCount` | podcast_rag.py:55 | Entries without `.txt` contribute nothing: the corpus of a listing equals the corpus of its transcripts alone. |
| `Corpus.Contiguous` | podcast_rag.py:54-64 | The chunks of entry i sit contiguously in the corpus, right after those of the entries listed before it. |
| `Batching.BatchesFrom` | podcast_rag.py:68-69 | The loop `for i in range(from, N, 100)` makes one batch per value of the range; batch k starts at its k-th value (`Batching.BatchAt`). |
| `Batching.MakeBatch` | podcast_rag.py:69-77 | A batch starting at i holds 1 to 100 texts, `chunks[i:i+100]` clipped at N. Its ids are i, i+1, … with one id per text. |
| `Batching.BatchAt` | podcast_rag.py:68-69 | The k-th batch is the one starting at the k-th value of `range(0, N, 100)`. |
| `Batching.BatchCount` | podcast_rag.py:67-68 | There are ceil(N/100) batches, and none exactly when N is 0. |
| `Batching.BatchShape` | podcast_rag.py:67-77 | Every batch holds at most 100 chunks, and all but the last exactly 100. Ids are start+j, and texts are the chunk slice at the batch's start. |
| `Batching.BatchesPartition` | podcast_rag.py:68-69 | The batch texts concatenated in order give back the chunk list. |
| `Batching.RangeSplit` | podcast_rag.py:74 | Consecutive step-1 ranges concatenate into one. |
| `Batching.BatchIds` | podcast_rag.py:73-77 | Across all batches the ids are exactly 0, 1, …, N-1, in order. |
| `Batching.IdsDistinct` | podcast_rag.py:73-77 | Id k sits at position k, so no id is handed out twice. |
| `VectorIndex.Apply` | podcast_rag.py:78-80 | An insert keeps the existing rows, appends the call's ids, texts and vectors as new rows, and leaves them unflushed. A flush keeps the rows and marks them flushed. |
| `VectorIndex.ApplyAllAppend` | podcast_rag.py:68-80 | Applying two call sequences in turn is the same as applying their concatenation. |
| `VectorIndex.SetupCollection` | podcast_rag.py:17-33 | An existing collection is returned unchanged, whatever dimension is asked for. Otherwise an empty collection of that dimension is created under the name. No other collection changes. |
| `VectorIndex.SetupReuses` | podcast_rag.py:20-22 | Opening the same name twice changes nothing and keeps its rows. |
| `Ingestion.LoadTranscripts` | podcast_rag.py:43-80 | Every call of a load is well formed: an insert has as many ids and vectors as texts. The guard, the inserts and the flush are stated by `Ingestion.LoadSkipsNonEmpty`, `Ingestion.LoadCalls` and `Ingestion.LoadStores`, and the source's loops are shown equal to it by `Ingestion.LoadTranscriptsLoop`. |
| `Ingestion.Inserts` | podcast_rag.py:68-78 | There is one insert per batch, in batch order, each with the batch's ids, texts and their encodings. |
| `Ingestion.ApplyInserts` | podcast_rag.py:68-78 | Applying the inserts appends exactly the batches' ids, texts and embeddings after the existing rows, in batch order. |
| `Ingestion.LoadSkipsNonEmpty` | podcast_rag.py:47-49 | A load into a collection that holds a row makes no call and changes nothing. |
| `Ingestion.LoadCalls` | podcast_rag.py:66-80 | A load into an empty collection makes ceil(N/100) inserts of at most 100 rows each, then exactly one flush, even when N is 0. |
| `Ingestion.LoadStores` | podcast_rag.py:51-80 | A load into an empty collection stores every chunk in corpus order under ids 0..N-1, with the embeddings its batches got, and leaves the collection flushed with its dimension unchanged. |
| `Ingestion.LoadIdempotent` | podcast_rag.py:47-49 | A second load leaves the size unchanged. After a first load that stored anything, the second makes no call at all. |
| `Ingestion.PartialLoadNeverResumed` | podcast_rag.py:47-49 | A load cut short after k of its inserts leaves some but not all chunks stored, and a later load inserts nothing. |
| `Ingestion.PrefixTexts` | podcast_rag.py:68-69 | The first k batches, for 0 < k < batch count, hold some but not all chunks. |
| `Ingestion.AccumulateChunks` | podcast_rag.py:51-64 | The accumulation loop over the listing produces exactly the corpus chunks. |
| `Ingestion.InsertAt` | podcast_rag.py:68-77 | The insert built from the k-th start of `range(0, N, 100)` is the k-th insert of the load. |
| `Ingestion.InsertStep` | podcast_rag.py:68-78 | One round of the batch loop extends the first k inserts to the first k+1, and the collection by exactly that insert. |
| `Ingestion.InsertBatches` | podcast_rag.py:66-78 | The batch loop makes exactly the load's inserts, in order, and ends with the collection they produce. |
| `Ingestion.LoadTranscriptsLoop` | podcast_rag.py:43-80 | The source's loops, guard and flush give the same collection and calls as the functional load. |
| `Ingestion.Init` | podcast_rag.py:7-15 | Constructing the class opens or creates `podcast_chunks`, loads into it, and leaves the loaded collection in the database under that name. No other collection changes. |
| `Ingestion.InitFresh` | podcast_rag.py:7-33 | On a database without the collection, the first instance creates it with dimension 384 and stores every corpus chunk in order, flushed. |
| `Ingestion.InitTwice` | podcast_rag.py:14-22 | A second instance reopens what the first stored and keeps its size. Once anything is stored, it makes no call and leaves the database unchanged. |
| `Ingestion.ReopenAfterPartialLoad` | podcast_rag.py:14-22 | A first load that stopped after k inserts leaves some but not all chunks in the database. The next instance reopens that collection, makes no call, and never adds the missing chunks. |
| `Query.GetRelevantContext` | podcast_rag.py:82-95 | There is one context text per hit, in hit order, each the hit's text. |
| `Query.BuildPrompt` | podcast_rag.py:100-104 | The prompt around a list of contexts; its parts are stated by `Query.PromptParts`, `Query.PromptWithoutContext`, `Query.PromptAppendContext` and `Query.PromptLength`. |
| `Query.AugmentPrompt` | podcast_rag.py:97-105 | The prompt opens with the header and ends with the trailer followed by the query, around the contexts `Query.GetRelevantContext` retrieves with the default limit of 50. |
| `Query.PromptParts` | podcast_rag.py:97-105 | The prompt is the header, then exactly the contexts joined by `"\n---\n"`, then the trailer, and it ends with the query. |
| `Query.PromptWithoutContext` | podcast_rag.py:99-104 | With no context the prompt is the header, the trailer and the query. |
| `Query.PromptAppendContext` | podcast_rag.py:102 | One more context appends the separator and that context after the earlier ones, so contexts appear in retrieval order. |
| `Query.PromptLength` | podcast_rag.py:100-104 | The prompt's length is the fixed parts, plus every context, plus one separator between neighbouring contexts. |
| `Query.ContextFromCollection` | podcast_rag.py:84-95 | When the search returns only stored rows, the context has at most `limit` texts, each the text of a stored row. |
| `Query.HitNamesRow` | podcast_rag.py:87-95 | A hit of a search that returns only stored rows names a row, so the searched collection is not empty. |
| `Query.NoHitsFromEmpty` | podcast_rag.py:87-95 | A search of an empty collection that returns only stored rows returns nothing. |
| `Query.EmptyCollectionPrompt` | podcast_rag.py:97-105 | An empty collection gives an empty context, so the prompt is the header and trailer alone. |
| `Query.ContextIsCorpusChunk` | podcast_rag.py:43-95 | After a load into an empty collection, every retrieved context is a chunk of some transcript in the corpus. |

## Left out

- **Milvus connection, schema and index.** `connections.connect`, the field
  schema, the `IVF_FLAT` index with its `nlist`/`nprobe` parameters and
  `collection.load()` are all left out. The connection, the index and
  `collection.load()` do not change which rows are stored. The field schema
  does: its limits make the database reject some inserts (see the next
  two lines).
- **Similarity search.** The cosine nearest-neighbour ranking is left out.
  Search is an oracle parameter. `HitsFromCollection` states the only
  assumption made about it: at most `limit` hits, each naming a stored row.
- **Conflicting id settings.** The schema declares `auto_id=True`, yet the
  inserts pass explicit ids. What the database does with that conflict is
  library behaviour. The model stores the ids the code passes.
- **Dimension checks.** Checking a vector's dimension on insert is done by the
  database, not by this code. Vectors are stored without such a check.
- **Text length limit.** The schema declares the text field as
  `VARCHAR(max_length=65535)`. The database rejects an insert whose batch
  holds a longer chunk, and the load then raises at that batch and stops
  part-way. The model stores text of any length. A rejected batch would end
  the load like the cut-short load of `Ingestion.PartialLoadNeverResumed`:
  the earlier batches stay stored and are never completed.
- Ingestion.PartialLoadNeverResumed: holds only when `num_entities` counts
  every inserted row, flushed or not, as `VectorIndex.NumEntities` does.
  Whether the database counts the unflushed rows of a load cut short before
  its flush is library behaviour, not decided by this code. If it counts
  only flushed rows, the next load starts again from an apparently empty
  collection.
- Ingestion.ReopenAfterPartialLoad: rests on the same way of counting as
  `Ingestion.PartialLoadNeverResumed`; under a database that counts only
  flushed rows, the next instance would load everything again.
- **The sentence encoder.** The encoder is floating-point model inference. It
  is left uninterpreted: any function that returns one vector per text.
- **File system access.** `os.listdir` and `open` are replaced by an input
  sequence of (name, contents) entries. The listing's order is whatever the
  caller supplies. `contents` stands for the file's characters after decoding.
  The text-mode newline translation of `f.read()` is modelled
  (`Text.UniversalNewlines`). The locale's character decoding is not. Neither
  are read and decode errors, which abort the whole load in the source.
- **Failures part-way through a load.** Exceptions from the encoder or the
  database are not modelled as such. A load cut short is represented by its
  first k inserts (`Ingestion.PartialLoadNeverResumed`).
- **The other programs.**
  - The podcast downloader: RSS parsing, HTTP and thread pools.
  - The transcriber's API call and its `.mp3`→`.txt` rename. Only its
    one-line-per-utterance output format is modelled.
  - The chat-completion wrapper.
  - The web front end.
  None of these touch the retrieval logic.
- **Utterance formatting.** `Chunker.TranscriberOutputLines` takes each
  utterance line already formatted as `Speaker s: text`. It does not model
  the f-string formatting.
- Chunker.TranscriberOutputLines: covers only utterances without `'\n'` or
  `'\r'`. The transcriber does not guarantee this. An utterance holding
  either is read back as several lines, and the chunk count then follows the
  read text's line count, as `Chunker.ChunkCount` states for any text.

=== FILE: batching.dfy ===
/** Batching in `PodcastRAG._load_transcripts`: the chunk list is cut into
    consecutive batches of `BatchSize` (the last one possibly shorter), and
    the batch starting at position i carries the explicit ids
    `range(i, min(i + BatchSize, N))` for N chunks. */
module Batching {
  import opened Seqs

  const BatchSize: int := 100

  /** One insert's worth of chunks: the position of its first chunk, its
      ids and its texts. */
  datatype Batch = Batch(start: int, ids: seq<int>, texts: seq<string>)

  /** The batch whose first chunk is at position i: the clipped slice
      `chunks[i:i+BatchSize]` and the ids of the same positions. */
  function MakeBatch(chunks: seq<string>, i: int): (b: Batch)
    requires 0 <= i < |chunks|
    ensures b.start == i
    ensures 1 <= |b.texts| <= BatchSize
    ensures |b.ids| == |b.texts|
    ensures i + |b.texts| == Min(i + BatchSize, |chunks|)
    ensures forall j :: 0 <= j < |b.texts| ==> b.ids[j] == i + j && b.texts[j] == chunks[i + j]
  {
    var stop := Min(i + BatchSize, |chunks|);
    Batch(i, Range(i, stop, 1), chunks[i .. stop])
  }

  /** The batches of `for i in range(from, N, BatchSize)`, in loop order. */
  function BatchesFrom(chunks: seq<string>, from: int): (r: seq<Batch>)
    requires 0 <= from
    ensures |r| == |Range(from, |chunks|, BatchSize)|
    decreases |chunks| - from
  {
    if from >= |chunks| then []
    else [MakeBatch(chunks, from)] + BatchesFrom(chunks, from + BatchSize)
  }

  function Batches(chunks: seq<string>): seq<Batch>
  {
    BatchesFrom(chunks, 0)
  }

  /** The texts of the batches, concatenated in batch order. */
  function AllTexts(bs: seq<Batch>): seq<string>
  {
    if |bs| == 0 then [] else bs[0].texts + AllTexts(bs[1..])
  }

  /** The ids of the batches, concatenated in batch order. */
  function AllIds(bs: seq<Batch>): seq<int>
  {
    if |bs| == 0 then [] else bs[0].ids + AllIds(bs[1..])
  }

  /** The k-th batch is the one whose first chunk is at the k-th value of
      `range(from, N, BatchSize)`. */
  lemma {:induction false} BatchAt(chunks: seq<string>, from: int, k: int)
    requires 0 <= from
    requires 0 <= k < |BatchesFrom(chunks, from)|
    ensures var i := Range(from, |chunks|, BatchSize)[k];
      0 <= i < |chunks| && BatchesFrom(chunks, from)[k] == MakeBatch(chunks, i)
    decreases k
  {
    if k > 0 {
      BatchAt(chunks, from + BatchSize, k - 1);
    }
  }

  /** There are ceil(N/100) batches; in particular no chunks means no batch. */
  lemma BatchCount(chunks: seq<string>)
    ensures |Batches(chunks)| == (|chunks| + BatchSize - 1) / BatchSize
    ensures |chunks| == 0 <==> Batches(chunks) == []
  {
    if |chunks| > 0 {
      RangeLength(0, |chunks|, BatchSize);
    }
  }

  /** Every batch holds at most 100 chunks and all but the last exactly 100;
      the ids of a batch are its positions in the chunk list. */
  lemma BatchShape(chunks: seq<string>, from: int, k: int)
    requires 0 <= from
    requires 0 <= k < |BatchesFrom(chunks, from)|
    ensures var b := BatchesFrom(chunks, from)[k];
      && 1 <= |b.texts| <= BatchSize
      && (k + 1 < |BatchesFrom(chunks, from)| ==> |b.texts| == BatchSize)
      && |b.ids| == |b.texts|
      && (forall j :: 0 <= j < |b.ids| ==> b.ids[j] == b.start + j)
      && 0 <= b.start <= b.start + |b.texts| <= |chunks|
      && b.texts == chunks[b.start .. b.start + |b.texts|]
  {
    var bs := BatchesFrom(chunks, from);
    BatchAt(chunks, from, k);
    var i := Range(from, |chunks|, BatchSize)[k];
    var b := MakeBatch(chunks, i);
    assert bs[k] == b;
    if k + 1 < |bs| {
      RangeNext(from, |chunks|, BatchSize, k);
      assert i + BatchSize < |chunks|;
    }
  }

  /** The batches concatenate back to the chunks they were cut from. */
  lemma {:induction false} BatchesPartition(chunks: seq<string>, from: int)
    requires 0 <= from <= |chunks|
    ensures AllTexts(BatchesFrom(chunks, from)) == chunks[from..]
    decreases |chunks| - from
  {
    if from < |chunks| {
      var b := MakeBatch(chunks, from);
      var next := Min(from + BatchSize, |chunks|);
      var bs := BatchesFrom(chunks, from);
      assert bs[1..] == BatchesFrom(chunks, from + BatchSize);
      if next < |chunks| {
        BatchesPartition(chunks, next);
      } else {
        assert BatchesFrom(chunks, from + BatchSize) == [];
      }
      assert b.texts == chunks[from .. next];
      assert chunks[from..] == chunks[from .. next] + chunks[next..];
    }
  }

  /** Consecutive ranges with step 1 concatenate into one. */
  lemma RangeSplit(lo: int, mid: int, hi: int)
    requires lo <= mid <= hi
    ensures Range(lo, hi, 1) == Range(lo, mid, 1) + Range(mid, hi, 1)
  {
    var a, b, c := Range(lo, mid, 1), Range(mid, hi, 1), Range(lo, hi, 1);
    assert |a| == mid - lo && |b| == hi - mid && |c| == hi - lo;
    assert forall k :: 0 <= k < |c| ==> c[k] == (a + b)[k] by {
      forall k | 0 <= k < |c| ensures c[k] == (a + b)[k] {
        if k < |a| { assert (a + b)[k] == a[k]; } else { assert (a + b)[k] == b[k - |a|]; }
      }
    }
  }

  /** Across all batches the ids are exactly 0, 1, ..., N-1, in order. */
  lemma {:induction false} BatchIds(chunks: seq<string>, from: int)
    requires 0 <= from <= |chunks|
    ensures AllIds(BatchesFrom(chunks, from)) == Range(from, |chunks|, 1)
    decreases |chunks| - from
  {
    if from < |chunks| {
      var b := MakeBatch(chunks, from);
      var next := Min(from + BatchSize, |chunks|);
      var bs := BatchesFrom(chunks, from);
      assert bs[1..] == BatchesFrom(chunks, from + BatchSize);
      if next < |chunks| {
        BatchIds(chunks, next);
      } else {
        assert BatchesFrom(chunks, from + BatchSize) == [];
      }
      assert b.ids == Range(from, next, 1);
      RangeSplit(from, next, |chunks|);
    }
  }

  /** The ids number the chunks: position k of the concatenated ids is k,
      so no id is handed out twice. */
  lemma IdsDistinct(chunks: seq<string>)
    ensures var ids := AllIds(Batches(chunks));
      && |ids| == |chunks|
      && (forall i :: 0 <= i < |ids| ==> ids[i] == i)
      && (forall i, j :: 0 <= i < j < |ids| ==> ids[i] != ids[j])
  {
    BatchIds(chunks, 0);
  }
}

=== FILE: chunker.dfy ===
/** The transcript chunker of `PodcastRAG._load_transcripts`: a transcript
    is split into lines on '\n', a window of `ChunkSize` lines slides over
    them with stride `ChunkSize / 2`, and every window is re-joined with
    '\n'. Windows near the end are clipped, as Python slices are. */
module Chunker {
  import opened Seqs
  import opened Text

  const ChunkSize: int := 5
  const Stride: int := ChunkSize / 2
  const NewLine: char := '\n'

  /** The lines of the window that starts at line `i`: `lines[i:i+ChunkSize]`. */
  function Window(lines: seq<string>, i: int): seq<string>
    requires 0 <= i <= |lines|
  {
    lines[i .. Min(i + ChunkSize, |lines|)]
  }

  /** The chunks whose windows start at i, i + Stride, i + 2*Stride, ...
      below |lines|, in that order: the comprehension over
      `range(i, len(lines), Stride)`. There are ceil((n-i)/2) of them for
      n lines. */
  function ChunksFrom(lines: seq<string>, i: int): (r: seq<string>)
    requires 0 <= i
    ensures |r| == if i < |lines| then (|lines| - i + 1) / 2 else 0
    decreases |lines| - i
  {
    if i >= |lines| then []
    else [Join(Window(lines, i), [NewLine])] + ChunksFrom(lines, i + Stride)
  }

  /** Chunk k of the chunks from line i joins the window starting at line
      i + 2k. */
  lemma {:induction false} ChunkAt(lines: seq<string>, i: int, k: int)
    requires 0 <= i && 0 <= k < |ChunksFrom(lines, i)|
    ensures i + 2 * k < |lines|
    ensures ChunksFrom(lines, i)[k] == Join(Window(lines, i + 2 * k), [NewLine])
    decreases k
  {
    assert Stride == 2;
    if k > 0 {
      ChunkAt(lines, i + Stride, k - 1);
    }
  }

  /** The chunk texts of a transcript already split into lines: ceil(n/2)
      of them for n lines. */
  function ChunkLines(lines: seq<string>): (r: seq<string>)
    ensures |r| == (|lines| + 1) / 2
  {
    ChunksFrom(lines, 0)
  }

  /** Chunk k joins with '\n' the window that starts at line 2k, i.e.
      lines 2k up to (but excluding) min(2k+5, n). */
  lemma ChunkContents(lines: seq<string>, k: int)
    requires 0 <= k < |ChunkLines(lines)|
    ensures 2 * k < |lines|
    ensures ChunkLines(lines)[k] == Join(Window(lines, 2 * k), [NewLine])
  {
    ChunkAt(lines, 0, k);
  }

  /** The chunk texts of one transcript file's contents. */
  function ChunkTranscript(text: string): seq<string>
  {
    ChunkLines(Split(text, NewLine))
  }

  /** A transcript with m newline characters has m + 1 lines and so
      ceil((m+1)/2) chunks; never none. */
  lemma ChunkCount(text: string)
    ensures |ChunkTranscript(text)| == (Occurrences(text, NewLine) + 2) / 2
    ensures |ChunkTranscript(text)| >= 1
  {
    SplitCount(text, NewLine);
  }

  /** Every chunk spans between one and five lines, lines 2k up to
      (but excluding) min(2k+5, n). */
  lemma WindowSpan(lines: seq<string>, k: int)
    requires 0 <= k < |ChunkLines(lines)|
    ensures 1 <= |Window(lines, 2 * k)| <= ChunkSize
    ensures Window(lines, 2 * k) == lines[2 * k .. Min(2 * k + 5, |lines|)]
  {
  }

  /** Neighbouring chunks k and k+1 share the lines from 2k+2 up to the end
      of chunk k: the last lines of chunk k are the first lines of chunk
      k+1, and there are exactly three of them when chunk k is full width. */
  lemma Overlap(lines: seq<string>, k: int)
    requires 0 <= k && k + 1 < |ChunkLines(lines)|
    ensures var w0, w1 := Window(lines, 2 * k), Window(lines, 2 * k + 2);
      && |w0| >= 3
      && w0[2..] == lines[2 * k + 2 .. Min(2 * k + 5, |lines|)]
      && w1[.. |w0| - 2] == w0[2..]
      && (|w0| == ChunkSize ==> |w0[2..]| == 3)
  {
  }

  /** No line is dropped: line j lies in chunk j/2, at position j mod 2. */
  lemma Coverage(lines: seq<string>, j: int)
    requires 0 <= j < |lines|
    ensures j / 2 < |ChunkLines(lines)|
    ensures var w := Window(lines, 2 * (j / 2));
      j - 2 * (j / 2) < |w| && w[j - 2 * (j / 2)] == lines[j]
  {
  }

  /** Splitting a chunk of a transcript on '\n' gives back exactly the
      lines of its window, since no line contains '\n'. */
  lemma ChunkRecoversWindow(text: string, k: int)
    requires 0 <= k < |ChunkTranscript(text)|
    ensures var lines := Split(text, NewLine);
      Split(ChunkTranscript(text)[k], NewLine) == Window(lines, 2 * k)
  {
    var lines := Split(text, NewLine);
    var w := Window(lines, 2 * k);
    ChunkContents(lines, k);
    assert forall i :: 0 <= i < |w| ==> NewLine !in w[i] by {
      forall i | 0 <= i < |w| ensures NewLine !in w[i] {
        assert w[i] == lines[2 * k + i];
      }
    }
    SplitJoin(w, NewLine);
  }

  /** An empty file still yields one chunk, the empty string. */
  lemma EmptyTranscript()
    ensures ChunkTranscript("") == [""]
  {
    assert Split("", NewLine) == [""];
  }

  /** The transcriber writes every utterance followed by '\n'. */
  function TranscriberOutput(utterances: seq<string>): string
  {
    if |utterances| == 0 then ""
    else TranscriberOutput(utterances[..|utterances| - 1]) + utterances[|utterances| - 1] + [NewLine]
  }

  /** The transcriber's output is its utterances joined by '\n', followed by '\n'. */
  lemma {:induction false} TranscriberOutputJoin(utterances: seq<string>)
    ensures TranscriberOutput(utterances) == Join(utterances + [""], [NewLine])
    decreases |utterances|
  {
    var u := utterances;
    if |u| > 0 {
      var init, last := u[..|u| - 1], u[|u| - 1];
      TranscriberOutputJoin(init);
      assert init + [last] == u;
      if |init| == 0 {
        assert u + [""] == [last, ""];
      } else {
        JoinAppend(init, [""], [NewLine]);
        JoinAppend(init, [last], [NewLine]);
        JoinAppend(u, [""], [NewLine]);
      }
    }
  }

  /** A file in the transcriber's format, read back in text mode, splits
      into its utterances plus one trailing empty line, so it yields
      ceil((u+1)/2) chunks for u utterances. This needs every utterance to
      be a single line: one holding '\n' or '\r' would be read back as
      several lines. */
  lemma TranscriberOutputLines(utterances: seq<string>)
    requires forall i :: 0 <= i < |utterances| ==> NewLine !in utterances[i] && CarriageReturn !in utterances[i]
    ensures UniversalNewlines(TranscriberOutput(utterances)) == TranscriberOutput(utterances)
    ensures Split(TranscriberOutput(utterances), NewLine) == utterances + [""]
    ensures |ChunkTranscript(UniversalNewlines(TranscriberOutput(utterances)))| == (|utterances| + 2) / 2
  {
    var parts := utterances + [""];
    var out := TranscriberOutput(utterances);
    TranscriberOutputJoin(utterances);
    assert forall i :: 0 <= i < |parts| ==> NewLine !in parts[i] && CarriageReturn !in parts[i] by {
      forall i | 0 <= i < |parts| ensures NewLine !in parts[i] && CarriageReturn !in parts[i] {
        if i < |utterances| { assert parts[i] == utterances[i]; }
      }
    }
    SplitJoin(parts, NewLine);
    JoinWithout(parts, [NewLine], CarriageReturn);
    UniversalNewlinesNoCR(out);
  }
}

=== FILE: corpus.dfy ===
/** Corpus assembly in `PodcastRAG._load_transcripts`: the transcripts
    directory is read as a listing of (file name, contents) entries; only
    names ending in ".txt" are transcripts, and their chunks are appended
    to one list in listing order. */
module Corpus {
  import opened Text
  import opened Chunker

  const TranscriptSuffix: string := ".txt"

  /** One entry of the directory listing: the file name and the file's
      characters as decoded, before `f.read()` translates its line endings. */
  datatype DirEntry = DirEntry(name: string, contents: string)

  /** The text `f.read()` hands to the chunker for this entry. */
  function ReadText(e: DirEntry): (r: string)
    ensures CarriageReturn !in r
  {
    UniversalNewlines(e.contents)
  }

  predicate IsTranscript(e: DirEntry)
  {
    EndsWith(e.name, TranscriptSuffix)
  }

  /** The chunks one directory entry contributes: none unless it is a transcript. */
  function EntryChunks(e: DirEntry): seq<string>
  {
    if IsTranscript(e) then ChunkTranscript(ReadText(e)) else []
  }

  /** An entry contributes at least one chunk exactly when it is a
      transcript, even an empty one. */
  lemma EntryChunksNonEmpty(e: DirEntry)
    ensures IsTranscript(e) <==> |EntryChunks(e)| >= 1
  {
    ChunkCount(ReadText(e));
  }

  /** `f` applied to every element, the results concatenated in order. */
  function ConcatMap<T>(f: T -> seq<string>, xs: seq<T>): seq<string>
  {
    if |xs| == 0 then [] else f(xs[0]) + ConcatMap(f, xs[1..])
  }

  /** All chunks of the listing, entry after entry. */
  function CorpusChunks(entries: seq<DirEntry>): seq<string>
  {
    ConcatMap(EntryChunks, entries)
  }

  lemma {:induction false} ConcatMapAppend<T>(f: T -> seq<string>, a: seq<T>, b: seq<T>)
    ensures ConcatMap(f, a + b) == ConcatMap(f, a) + ConcatMap(f, b)
    decreases |a|
  {
    if |a| == 0 {
      assert a + b == b;
    } else {
      assert (a + b)[0] == a[0];
      assert (a + b)[1..] == a[1..] + b;
      ConcatMapAppend(f, a[1..], b);
    }
  }

  lemma ConcatMapSnoc<T>(f: T -> seq<string>, xs: seq<T>, i: int)
    requires 0 <= i < |xs|
    ensures ConcatMap(f, xs[..i + 1]) == ConcatMap(f, xs[..i]) + f(xs[i])
  {
    ConcatMapAppend(f, xs[..i], [xs[i]]);
    assert xs[..i + 1] == xs[..i] + [xs[i]];
    assert ConcatMap(f, [xs[i]]) == f(xs[i]) by {
      assert [xs[i]][1..] == [];
    }
  }

  lemma ConcatMapSlice<T>(f: T -> seq<string>, xs: seq<T>, i: int)
    requires 0 <= i < |xs|
    ensures |ConcatMap(f, xs[..i])| + |f(xs[i])| == |ConcatMap(f, xs[..i + 1])|
    ensures |ConcatMap(f, xs[..i + 1])| <= |ConcatMap(f, xs)|
    ensures ConcatMap(f, xs)[|ConcatMap(f, xs[..i])| .. |ConcatMap(f, xs[..i + 1])|] == f(xs[i])
  {
    var before, after := xs[..i + 1], xs[i + 1..];
    var cb, ch, ca := ConcatMap(f, xs[..i]), f(xs[i]), ConcatMap(f, after);
    ConcatMapSnoc(f, xs, i);
    assert xs == before + after;
    ConcatMapAppend(f, before, after);
    assert ConcatMap(f, xs) == (cb + ch) + ca;
    assert ((cb + ch) + ca)[|cb| .. |cb| + |ch|] == ch;
  }

  /** Number of chunks an entry contributes, computed from its line count
      alone: ceil(lines/2) for a transcript whose text reads as `lines`
      lines, 0 otherwise. */
  function ExpectedChunks(e: DirEntry): nat
  {
    if IsTranscript(e) then (Occurrences(ReadText(e), NewLine) + 1 + 1) / 2 else 0
  }

  function ExpectedTotal(entries: seq<DirEntry>): nat
  {
    if |entries| == 0 then 0 else ExpectedChunks(entries[0]) + ExpectedTotal(entries[1..])
  }

  /** The transcripts of the listing, in listing order: every entry kept
      is a transcript of the listing, and every transcript is kept. */
  function Transcripts(entries: seq<DirEntry>): (r: seq<DirEntry>)
    ensures forall i :: 0 <= i < |r| ==> IsTranscript(r[i]) && r[i] in entries
    ensures forall i :: 0 <= i < |entries| && IsTranscript(entries[i]) ==> entries[i] in r
    ensures |r| <= |entries|
  {
    if |entries| == 0 then []
    else if IsTranscript(entries[0]) then [entries[0]] + Transcripts(entries[1..])
    else Transcripts(entries[1..])
  }

  /** The filter keeps listing order: the transcripts of two listings one
      after the other are their transcripts one after the other. */
  lemma {:induction false} TranscriptsAppend(a: seq<DirEntry>, b: seq<DirEntry>)
    ensures Transcripts(a + b) == Transcripts(a) + Transcripts(b)
    decreases |a|
  {
    if |a| == 0 {
      assert a + b == b;
    } else {
      assert (a + b)[0] == a[0];
      assert (a + b)[1..] == a[1..] + b;
      TranscriptsAppend(a[1..], b);
    }
  }

  /** A listing of one entry keeps it exactly when it is a transcript. */
  lemma TranscriptsOne(e: DirEntry)
    ensures Transcripts([e]) == if IsTranscript(e) then [e] else []
  {
    assert [e][1..] == [];
  }

  /** A `.txt` file the transcriber wrote with u single-line utterances
      contributes ceil((u+1)/2) chunks. */
  lemma TranscriberFileChunks(name: string, utterances: seq<string>)
    requires EndsWith(name, TranscriptSuffix)
    requires forall i :: 0 <= i < |utterances| ==> NewLine !in utterances[i] && CarriageReturn !in utterances[i]
    ensures |EntryChunks(DirEntry(name, TranscriberOutput(utterances)))| == (|utterances| + 2) / 2
  {
    TranscriberOutputLines(utterances);
  }

  /** Reading two listings one after the other gives their chunks one after the other. */
  lemma CorpusAppend(a: seq<DirEntry>, b: seq<DirEntry>)
    ensures CorpusChunks(a + b) == CorpusChunks(a) + CorpusChunks(b)
  {
    ConcatMapAppend(EntryChunks, a, b);
  }

  /** Extending the listing by one entry extends the corpus by that entry's chunks. */
  lemma CorpusSnoc(entries: seq<DirEntry>, e: int)
    requires 0 <= e < |entries|
    ensures CorpusChunks(entries[..e + 1]) == CorpusChunks(entries[..e]) + EntryChunks(entries[e])
  {
    ConcatMapSnoc(EntryChunks, entries, e);
  }

  /** The corpus has as many chunks as the per-file counts add up to. */
  lemma {:induction false} CorpusSize(entries: seq<DirEntry>)
    ensures |CorpusChunks(entries)| == ExpectedTotal(entries)
    decreases |entries|
  {
    if |entries| > 0 {
      CorpusSize(entries[1..]);
      ChunkCount(ReadText(entries[0]));
    }
  }

  /** Entries that are not transcripts contribute nothing: the corpus of a
      listing equals the corpus of its transcripts alone. */
  lemma {:induction false} OnlyTranscriptsCount(entries: seq<DirEntry>)
    ensures CorpusChunks(Transcripts(entries)) == CorpusChunks(entries)
    decreases |entries|
  {
    if |entries| > 0 {
      OnlyTranscriptsCount(entries[1..]);
      if IsTranscript(entries[0]) {
        assert ([entries[0]] + Transcripts(entries[1..]))[1..] == Transcripts(entries[1..]);
      }
    }
  }

  /** Position in the corpus of the first chunk of entry i. */
  function Offset(entries: seq<DirEntry>, i: int): nat
    requires 0 <= i <= |entries|
  {
    |CorpusChunks(entries[..i])|
  }

  /** The chunks of entry i sit contiguously in the corpus, right after the
      chunks of the entries listed before it. */
  lemma Contiguous(entries: seq<DirEntry>, i: int)
    requires 0 <= i < |entries|
    ensures Offset(entries, i) + |EntryChunks(entries[i])| == Offset(entries, i + 1)
    ensures Offset(entries, i + 1) <= |CorpusChunks(entries)|
    ensures CorpusChunks(entries)[Offset(entries, i) .. Offset(entries, i + 1)] == EntryChunks(entries[i])
  {
    ConcatMapSlice(EntryChunks, entries, i);
  }
}

=== FILE: ingestion.dfy ===
/** `PodcastRAG._load_transcripts`: unless the collection already holds a
    row, the corpus is chunked, cut into batches, every batch is encoded and
    inserted with explicit ids, and one flush follows the last batch. The
    result records the collection afterwards and the calls made on it.
    `PodcastRAG.__init__` runs the load on the collection it opens and
    leaves the result in the database for the next instance. */
module Ingestion {
  import opened Seqs
  import opened Corpus
  import opened Batching
  import opened VectorIndex

  /** The insert made for one batch: its ids, its texts and their embeddings. */
  function InsertFor(b: Batch, enc: Encoder): (call: Call)
    requires |b.ids| == |b.texts|
    ensures call.Insert? && WellFormed(call)
  {
    Insert(b.ids, b.texts, enc(b.texts))
  }

  predicate ConsistentBatches(bs: seq<Batch>)
  {
    forall k :: 0 <= k < |bs| ==> |bs[k].ids| == |bs[k].texts|
  }

  /** The inserts for a sequence of batches, one per batch, in batch order. */
  function Inserts(bs: seq<Batch>, enc: Encoder): (r: seq<Call>)
    requires ConsistentBatches(bs)
    ensures |r| == |bs|
    ensures forall k :: 0 <= k < |r| ==> r[k] == InsertFor(bs[k], enc)
    ensures AllWellFormed(r)
  {
    seq(|bs|, k requires 0 <= k < |bs| => InsertFor(bs[k], enc))
  }

  lemma BatchesConsistent(chunks: seq<string>, from: int)
    requires 0 <= from
    ensures ConsistentBatches(BatchesFrom(chunks, from))
  {
    forall k | 0 <= k < |BatchesFrom(chunks, from)|
      ensures |BatchesFrom(chunks, from)[k].ids| == |BatchesFrom(chunks, from)[k].texts|
    {
      BatchShape(chunks, from, k);
    }
  }

  /** The inserts `_load_transcripts` makes for a corpus, in order. */
  function CorpusInserts(entries: seq<DirEntry>, enc: Encoder): (r: seq<Call>)
    ensures AllWellFormed(r)
  {
    var bs := Batches(CorpusChunks(entries));
    BatchesConsistent(CorpusChunks(entries), 0);
    Inserts(bs, enc)
  }

  /** The collection after a load and the calls the load made on it. */
  datatype LoadResult = LoadResult(coll: Collection, calls: seq<Call>)

  /** One run of `_load_transcripts` on collection `c` and a directory listing. */
  function LoadTranscripts(c: Collection, entries: seq<DirEntry>, enc: Encoder): (r: LoadResult)
    ensures AllWellFormed(r.calls)
  {
    if NumEntities(c) > 0 then LoadResult(c, [])
    else
      var calls := CorpusInserts(entries, enc) + [Flush];
      ApplyAllAppend(c, CorpusInserts(entries, enc), [Flush]);
      LoadResult(ApplyAll(c, calls), calls)
  }

  /** The embeddings of the batches, each batch encoded on its own, concatenated. */
  function AllVectors(bs: seq<Batch>, enc: Encoder): seq<Vec>
  {
    if |bs| == 0 then [] else enc(bs[0].texts) + AllVectors(bs[1..], enc)
  }

  /** Applying the inserts of some batches appends exactly their ids, texts
      and embeddings after the existing rows, in batch order. */
  lemma {:induction false} ApplyInserts(c: Collection, bs: seq<Batch>, enc: Encoder)
    requires ConsistentBatches(bs)
    ensures var r := ApplyAll(c, Inserts(bs, enc));
      && r.dim == c.dim
      && |r.units| == |c.units| + |AllTexts(bs)|
      && r.units[..|c.units|] == c.units
      && Ids(r.units[|c.units|..]) == AllIds(bs)
      && Texts(r.units[|c.units|..]) == AllTexts(bs)
      && Vectors(r.units[|c.units|..]) == AllVectors(bs, enc)
      && (|bs| == 0 ==> r == c)
    decreases |bs|
  {
    if |bs| > 0 {
      var first := InsertFor(bs[0], enc);
      var c1 := Apply(c, first);
      var rest := bs[1..];
      assert ConsistentBatches(rest) by {
        forall k | 0 <= k < |rest| ensures |rest[k].ids| == |rest[k].texts| {
          assert rest[k] == bs[k + 1];
        }
      }
      ApplyInserts(c1, rest, enc);
      var ins := Inserts(bs, enc);
      assert ins[0] == first;
      assert ins[1..] == Inserts(rest, enc);
      var r := ApplyAll(c, ins);
      assert r == ApplyAll(c1, Inserts(rest, enc));
      var n := |c.units|;
      PrefixTail(r.units, c1.units, n);
      ProjectConcat(c1.units[n..], r.units[|c1.units|..]);
    }
  }

  /** A load that finds a row already in the collection does nothing: no
      insert, no flush, the collection unchanged. */
  lemma LoadSkipsNonEmpty(c: Collection, entries: seq<DirEntry>, enc: Encoder)
    requires NumEntities(c) > 0
    ensures LoadTranscripts(c, entries, enc) == LoadResult(c, [])
  {
  }

  /** A load into an empty collection makes ceil(N/100) inserts of at most
      100 rows each, followed by exactly one flush, even when N is 0. */
  lemma LoadCalls(c: Collection, entries: seq<DirEntry>, enc: Encoder)
    requires NumEntities(c) == 0
    ensures var r := LoadTranscripts(c, entries, enc);
      var n := |r.calls| - 1;
      && n == (|CorpusChunks(entries)| + BatchSize - 1) / BatchSize
      && r.calls[n] == Flush
      && forall i :: 0 <= i < n ==> r.calls[i].Insert? && |r.calls[i].texts| <= BatchSize
  {
    var chunks := CorpusChunks(entries);
    BatchesConsistent(chunks, 0);
    BatchCount(chunks);
    var r := LoadTranscripts(c, entries, enc);
    var ins := Inserts(Batches(chunks), enc);
    assert r.calls == ins + [Flush];
    forall i | 0 <= i < |ins| ensures r.calls[i].Insert? && |r.calls[i].texts| <= BatchSize {
      BatchShape(chunks, 0, i);
    }
  }

  /** A load into an empty collection stores every chunk of the corpus, in
      corpus order, under ids 0..N-1, with the embedding its batch got, and
      leaves the collection flushed. */
  lemma LoadStores(c: Collection, entries: seq<DirEntry>, enc: Encoder)
    requires NumEntities(c) == 0
    ensures var chunks := CorpusChunks(entries);
      var r := LoadTranscripts(c, entries, enc).coll;
      && NumEntities(r) == |chunks|
      && Texts(r.units) == chunks
      && Ids(r.units) == Range(0, |chunks|, 1)
      && Vectors(r.units) == AllVectors(Batches(chunks), enc)
      && r.flushed
      && r.dim == c.dim
  {
    var chunks := CorpusChunks(entries);
    var bs := Batches(chunks);
    BatchesConsistent(chunks, 0);
    BatchesPartition(chunks, 0);
    BatchIds(chunks, 0);
    ApplyInserts(c, bs, enc);
    var ins := Inserts(bs, enc);
    ApplyAllAppend(c, ins, [Flush]);
    var r := LoadTranscripts(c, entries, enc);
    assert r.coll.units == ApplyAll(c, ins).units;
    assert r.coll.units == ApplyAll(c, ins).units[|c.units|..];
  }

  /** Loading twice leaves the size the first load produced; when the first
      load stored anything, the second makes no call at all. */
  lemma LoadIdempotent(c: Collection, entries: seq<DirEntry>, enc: Encoder)
    ensures var first := LoadTranscripts(c, entries, enc);
      var second := LoadTranscripts(first.coll, entries, enc);
      && NumEntities(second.coll) == NumEntities(first.coll)
      && (NumEntities(first.coll) > 0 ==> second == LoadResult(first.coll, []))
  {
    var first := LoadTranscripts(c, entries, enc);
    if NumEntities(c) == 0 {
      LoadStores(c, entries, enc);
      if NumEntities(first.coll) == 0 {
        LoadStores(first.coll, entries, enc);
      }
    }
  }

  /** A load that stops after its first k inserts (0 < k < number of
      batches), for instance because the encoder or the database failed,
      leaves fewer rows than the corpus has chunks, and a later load treats
      that collection as complete: it inserts nothing. */
  lemma PartialLoadNeverResumed(c: Collection, entries: seq<DirEntry>, enc: Encoder, k: int)
    requires NumEntities(c) == 0
    requires 0 < k < |CorpusInserts(entries, enc)|
    ensures var partial := ApplyAll(c, CorpusInserts(entries, enc)[..k]);
      && 0 < NumEntities(partial) < |CorpusChunks(entries)|
      && LoadTranscripts(partial, entries, enc) == LoadResult(partial, [])
  {
    var chunks := CorpusChunks(entries);
    var bs := Batches(chunks);
    BatchesConsistent(chunks, 0);
    var done := bs[..k];
    assert ConsistentBatches(done) by {
      forall j | 0 <= j < |done| ensures |done[j].ids| == |done[j].texts| {
        assert done[j] == bs[j];
      }
    }
    InsertsPrefix(bs, enc, k);
    ApplyInserts(c, done, enc);
    PrefixTexts(chunks, k);
  }

  /** The inserts of the first k batches are the first k inserts. */
  lemma InsertsPrefix(bs: seq<Batch>, enc: Encoder, k: int)
    requires ConsistentBatches(bs)
    requires 0 <= k <= |bs|
    ensures ConsistentBatches(bs[..k])
    ensures Inserts(bs[..k], enc) == Inserts(bs, enc)[..k]
  {
    assert ConsistentBatches(bs[..k]) by {
      forall j | 0 <= j < k ensures |bs[..k][j].ids| == |bs[..k][j].texts| {
        assert bs[..k][j] == bs[j];
      }
    }
  }

  /** The first k batches, 0 < k < number of batches, hold some but not all of the chunks. */
  lemma PrefixTexts(chunks: seq<string>, k: int)
    requires 0 < k < |Batches(chunks)|
    ensures 0 < |AllTexts(Batches(chunks)[..k])| < |chunks|
  {
    var bs := Batches(chunks);
    var done, rest := bs[..k], bs[k..];
    BatchShape(chunks, 0, 0);
    assert |AllTexts(done)| > 0 by {
      assert done[0] == bs[0];
    }
    AllTextsAppend(done, rest);
    assert done + rest == bs;
    BatchesPartition(chunks, 0);
    BatchShape(chunks, 0, k);
    assert |AllTexts(rest)| > 0 by {
      assert rest[0] == bs[k];
    }
  }

  lemma {:induction false} AllTextsAppend(a: seq<Batch>, b: seq<Batch>)
    ensures AllTexts(a + b) == AllTexts(a) + AllTexts(b)
    decreases |a|
  {
    if |a| == 0 {
      assert a + b == b;
    } else {
      assert (a + b)[0] == a[0];
      assert (a + b)[1..] == a[1..] + b;
      AllTextsAppend(a[1..], b);
    }
  }

  /** The database after constructing a `PodcastRAG`, the collection the
      instance holds, and the calls its load made. */
  datatype Started = Started(store: Store, coll: Collection, calls: seq<Call>)

  /** `PodcastRAG.__init__`: open or create the collection named
      `CollectionName` with dimension `Dimension`, load the transcripts into
      it, and leave what the load stored in the database under that name,
      where the next instance will find it. */
  function Init(store: Store, entries: seq<DirEntry>, enc: Encoder): (r: Started)
    ensures CollectionName in r.store && r.store[CollectionName] == r.coll
    ensures r.store.Keys == store.Keys + {CollectionName}
    ensures forall other :: other in store && other != CollectionName ==> r.store[other] == store[other]
  {
    var setup := SetupCollection(store, CollectionName, Dimension);
    var loaded := LoadTranscripts(setup.coll, entries, enc);
    Started(setup.store[CollectionName := loaded.coll], loaded.coll, loaded.calls)
  }

  /** The first instance on a database without the collection creates it
      with dimension 384 and stores every chunk of the corpus, in order. */
  lemma InitFresh(store: Store, entries: seq<DirEntry>, enc: Encoder)
    requires CollectionName !in store
    ensures var r := Init(store, entries, enc);
      && r.coll.dim == Dimension
      && NumEntities(r.coll) == |CorpusChunks(entries)|
      && Texts(r.coll.units) == CorpusChunks(entries)
      && r.coll.flushed
  {
    var setup := SetupCollection(store, CollectionName, Dimension);
    LoadStores(setup.coll, entries, enc);
  }

  /** A second instance reopens what the first one stored: it keeps the
      size, and once anything is stored it makes no call and changes
      nothing in the database. */
  lemma InitTwice(store: Store, entries: seq<DirEntry>, enc: Encoder)
    ensures var first := Init(store, entries, enc);
      var second := Init(first.store, entries, enc);
      && NumEntities(second.coll) == NumEntities(first.coll)
      && (NumEntities(first.coll) > 0 ==> second == Started(first.store, first.coll, []))
  {
    var first := Init(store, entries, enc);
    var setup := SetupCollection(store, CollectionName, Dimension);
    assert first.coll == LoadTranscripts(setup.coll, entries, enc).coll;
    LoadIdempotent(setup.coll, entries, enc);
    var reopened := SetupCollection(first.store, CollectionName, Dimension);
    assert reopened.store == first.store && reopened.coll == first.coll;
    if NumEntities(first.coll) > 0 {
      assert first.store[CollectionName := first.coll] == first.store;
    }
  }

  /** A first instance whose load stopped after k of its inserts leaves
      some but not all chunks in the database; the next instance reopens
      that collection, makes no call and never adds the missing chunks. */
  lemma ReopenAfterPartialLoad(store: Store, entries: seq<DirEntry>, enc: Encoder, k: int)
    requires CollectionName !in store
    requires 0 < k < |CorpusInserts(entries, enc)|
    ensures var setup := SetupCollection(store, CollectionName, Dimension);
      var partial := ApplyAll(setup.coll, CorpusInserts(entries, enc)[..k]);
      var crashed := setup.store[CollectionName := partial];
      && 0 < NumEntities(partial) < |CorpusChunks(entries)|
      && Init(crashed, entries, enc) == Started(crashed, partial, [])
  {
    var setup := SetupCollection(store, CollectionName, Dimension);
    var partial := ApplyAll(setup.coll, CorpusInserts(entries, enc)[..k]);
    var crashed := setup.store[CollectionName := partial];
    PartialLoadNeverResumed(setup.coll, entries, enc, k);
    assert SetupCollection(crashed, CollectionName, Dimension).coll == partial;
    assert crashed[CollectionName := partial] == crashed;
  }

  /** The accumulation loop: `chunks.extend(...)` for every listed entry. */
  method AccumulateChunks(entries: seq<DirEntry>) returns (chunks: seq<string>)
    ensures chunks == CorpusChunks(entries)
  {
    chunks := [];
    var e := 0;
    while e < |entries|
      invariant 0 <= e <= |entries|
      invariant chunks == CorpusChunks(entries[..e])
    {
      CorpusSnoc(entries, e);
      chunks := chunks + EntryChunks(entries[e]);
      e := e + 1;
    }
    assert entries[..e] == entries;
  }

  /** The k-th insert of a load is the one for the batch that starts at
      the k-th value of `range(0, N, BatchSize)`. */
  lemma InsertAt(chunks: seq<string>, enc: Encoder, k: int)
    requires 0 <= k < |Range(0, |chunks|, BatchSize)|
    ensures ConsistentBatches(Batches(chunks))
    ensures var i := Range(0, |chunks|, BatchSize)[k];
      var stop := Min(i + BatchSize, |chunks|);
      && 0 <= i < stop <= |chunks|
      && k < |Inserts(Batches(chunks), enc)|
      && Inserts(Batches(chunks), enc)[k] == Insert(Range(i, stop, 1), chunks[i .. stop], enc(chunks[i .. stop]))
  {
    BatchesConsistent(chunks, 0);
    BatchAt(chunks, 0, k);
    var b := MakeBatch(chunks, Range(0, |chunks|, BatchSize)[k]);
    assert Inserts(Batches(chunks), enc)[k] == InsertFor(b, enc);
  }

  /** One round of the batch loop: appending the insert built from the
      k-th start extends the first k inserts of the load to the first k+1,
      and applying it extends the collection accordingly. */
  lemma InsertStep(c: Collection, chunks: seq<string>, enc: Encoder, k: int, calls: seq<Call>, call: Call)
    requires 0 <= k < |Range(0, |chunks|, BatchSize)|
    requires ConsistentBatches(Batches(chunks))
    requires calls == Inserts(Batches(chunks), enc)[..k]
    requires var i := Range(0, |chunks|, BatchSize)[k];
      var stop := Min(i + BatchSize, |chunks|);
      && 0 <= i < stop <= |chunks|
      && call == Insert(Range(i, stop, 1), chunks[i .. stop], enc(chunks[i .. stop]))
    ensures AllWellFormed(calls + [call])
    ensures calls + [call] == Inserts(Batches(chunks), enc)[..k + 1]
    ensures ApplyAll(c, calls + [call]) == Apply(ApplyAll(c, calls), call)
  {
    var all := Inserts(Batches(chunks), enc);
    InsertAt(chunks, enc, k);
    TakeSnoc(all, k);
    assert AllWellFormed(calls) by {
      forall j | 0 <= j < |calls| ensures WellFormed(calls[j]) {
        assert calls[j] == all[j];
      }
    }
    ApplySnoc(c, calls, call);
  }

  /** The batch loop `for i in range(0, N, BatchSize)`: encode and insert
      batch after batch, the batch at position i with the ids
      `range(i, min(i + BatchSize, N))`. */
  method InsertBatches(c: Collection, chunks: seq<string>, enc: Encoder)
    returns (coll: Collection, calls: seq<Call>)
    ensures ConsistentBatches(Batches(chunks))
    ensures calls == Inserts(Batches(chunks), enc)
    ensures AllWellFormed(calls) && coll == ApplyAll(c, calls)
  {
    BatchesConsistent(chunks, 0);
    ghost var all := Inserts(Batches(chunks), enc);
    var starts := Range(0, |chunks|, BatchSize);
    BatchCount(chunks);
    coll, calls := c, [];
    var k := 0;
    while k < |starts|
      invariant 0 <= k <= |starts| == |all|
      invariant calls == all[..k]
      invariant AllWellFormed(calls) && coll == ApplyAll(c, calls)
    {
      var i := starts[k];
      var stop := Min(i + BatchSize, |chunks|);
      var batch := chunks[i .. stop];
      var call := Insert(Range(i, stop, 1), batch, enc(batch));
      InsertStep(c, chunks, enc, k, calls, call);
      coll := Apply(coll, call);
      calls := calls + [call];
      k := k + 1;
    }
    assert all[..k] == all;
  }

  /** The load written as the source's loops: accumulate the chunks entry
      by entry, then insert batch after batch, then flush once. */
  method LoadTranscriptsLoop(c: Collection, entries: seq<DirEntry>, enc: Encoder)
    returns (coll: Collection, calls: seq<Call>)
    ensures LoadResult(coll, calls) == LoadTranscripts(c, entries, enc)
  {
    if NumEntities(c) > 0 {
      return c, [];
    }
    var chunks := AccumulateChunks(entries);
    coll, calls := InsertBatches(c, chunks, enc);
    ApplyAllAppend(c, calls, [Flush]);
    coll := Apply(coll, Flush);
    calls := calls + [Flush];
  }
}

=== FILE: query.dfy ===
/** Retrieval and prompt assembly: `get_relevant_context` encodes the
    query, asks the collection for the nearest rows and returns their texts
    in hit order; `augment_prompt` wraps the texts, joined by a separator,
    between a fixed header and a trailer that ends with the query. The
    similarity search itself is an oracle passed in by the caller. */
module Query {
  import opened Text
  import opened Corpus
  import opened VectorIndex
  import opened Ingestion

  const DefaultResults: int := 50

  const Header: string := "Based on these conversations from the Technology Brothers podcast:\n\n"
  const Separator: string := "\n---\n"
  const Trailer: string := "\n\nDiscuss this question in your typical podcast style: "

  /** One search hit: the id and text of a stored row and its score. */
  datatype Hit = Hit(id: int, text: string, score: real)

  /** The similarity search `collection.search(data, limit)`, left abstract. */
  type Searcher = (Collection, Vec, int) -> seq<Hit>

  /** Hits that a search of `c` with limit `limit` may return: at most
      `limit` of them, each naming a row stored in `c`. */
  predicate HitsFromCollection(c: Collection, hits: seq<Hit>, limit: int)
  {
    && |hits| <= limit
    && forall i :: 0 <= i < |hits| ==>
         exists j :: 0 <= j < |c.units| && c.units[j].id == hits[i].id && c.units[j].text == hits[i].text
  }

  /** The vector the query is searched with: the encoder's only output for the one-element batch [query]. */
  function QueryVector(enc: Encoder, query: string): Vec
  {
    assert |enc([query])| == 1;
    enc([query])[0]
  }

  /** `get_relevant_context`: the text of every hit, one per hit, in hit order. */
  function GetRelevantContext(c: Collection, enc: Encoder, search: Searcher, query: string, limit: int): (r: seq<string>)
    ensures var hits := search(c, QueryVector(enc, query), limit);
      |r| == |hits| && forall i :: 0 <= i < |r| ==> r[i] == hits[i].text
  {
    var hits := search(c, QueryVector(enc, query), limit);
    seq(|hits|, i requires 0 <= i < |hits| => hits[i].text)
  }

  /** The prompt around a list of context texts. */
  function BuildPrompt(query: string, contexts: seq<string>): string
  {
    Header + Join(contexts, Separator) + Trailer + query
  }

  /** `augment_prompt`: the prompt around the default number of contexts for
      the query. It opens with the header and closes with the trailer
      followed by the query. */
  function AugmentPrompt(c: Collection, enc: Encoder, search: Searcher, query: string): (r: string)
    ensures |r| >= |Header| + |Trailer| + |query|
    ensures r[..|Header|] == Header
    ensures r[|r| - |query| - |Trailer| ..] == Trailer + query
  {
    BuildPrompt(query, GetRelevantContext(c, enc, search, query, DefaultResults))
  }

  /** The prompt reads as the header, then exactly the contexts joined by
      the separator, then the trailer, and it ends with the query. */
  lemma PromptParts(query: string, contexts: seq<string>)
    ensures var r := BuildPrompt(query, contexts);
      && |r| >= |Header| + |Trailer| + |query|
      && r[..|Header|] == Header
      && r[|Header| .. |r| - |query| - |Trailer|] == Join(contexts, Separator)
      && r[|r| - |query| - |Trailer| .. |r| - |query|] == Trailer
      && r[|r| - |query|..] == query
  {
  }

  /** No context leaves only the header and the trailer with the query. */
  lemma PromptWithoutContext(query: string)
    ensures BuildPrompt(query, []) == Header + Trailer + query
  {
  }

  /** Contexts appear in retrieval order: one more context appends the
      separator and that context after the ones before it. */
  lemma PromptAppendContext(query: string, contexts: seq<string>, next: string)
    requires |contexts| >= 1
    ensures BuildPrompt(query, contexts + [next])
      == Header + (Join(contexts, Separator) + Separator + next) + Trailer + query
  {
    JoinAppend(contexts, [next], Separator);
  }

  /** The prompt's length: the fixed parts, every context, and one separator between neighbouring contexts. */
  lemma PromptLength(query: string, contexts: seq<string>)
    requires |contexts| >= 1
    ensures |BuildPrompt(query, contexts)|
      == |Header| + TotalLength(contexts) + |Separator| * (|contexts| - 1) + |Trailer| + |query|
  {
    JoinLength(contexts, Separator);
  }

  /** When the search only returns rows of the collection, the context
      holds at most `limit` texts and each is the text of a stored row. */
  lemma ContextFromCollection(c: Collection, enc: Encoder, search: Searcher, query: string, limit: int)
    requires HitsFromCollection(c, search(c, QueryVector(enc, query), limit), limit)
    ensures var r := GetRelevantContext(c, enc, search, query, limit);
      |r| <= limit && forall i :: 0 <= i < |r| ==> r[i] in Texts(c.units)
  {
    var r := GetRelevantContext(c, enc, search, query, limit);
    var hits := search(c, QueryVector(enc, query), limit);
    forall i | 0 <= i < |r| ensures r[i] in Texts(c.units) {
      var j :| 0 <= j < |c.units| && c.units[j].id == hits[i].id && c.units[j].text == hits[i].text;
      assert Texts(c.units)[j] == r[i];
    }
  }

  /** Every hit of a search that only returns stored rows names a row, so
      the collection searched holds at least one. */
  lemma HitNamesRow(c: Collection, hits: seq<Hit>, limit: int, i: int)
    requires HitsFromCollection(c, hits, limit)
    requires 0 <= i < |hits|
    ensures NumEntities(c) > 0
  {
    var h := hits[i];
    assert exists j :: 0 <= j < |c.units| && c.units[j].id == h.id && c.units[j].text == h.text;
    var j :| 0 <= j < |c.units| && c.units[j].id == hits[i].id && c.units[j].text == hits[i].text;
  }

  /** A search of an empty collection that only returns stored rows returns nothing. */
  lemma NoHitsFromEmpty(c: Collection, hits: seq<Hit>, limit: int)
    requires NumEntities(c) == 0
    requires HitsFromCollection(c, hits, limit)
    ensures hits == []
  {
    assert |c.units| == 0;
    if |hits| > 0 {
      // the first hit would have to name a stored row, and there is none
      HitNamesRow(c, hits, limit, 0);
      assert false;
    }
  }

  /** An empty collection gives an empty context, so the prompt is the header and trailer alone. */
  lemma EmptyCollectionPrompt(c: Collection, enc: Encoder, search: Searcher, query: string)
    requires NumEntities(c) == 0
    requires HitsFromCollection(c, search(c, QueryVector(enc, query), DefaultResults), DefaultResults)
    ensures GetRelevantContext(c, enc, search, query, DefaultResults) == []
    ensures AugmentPrompt(c, enc, search, query) == Header + Trailer + query
  {
    NoHitsFromEmpty(c, search(c, QueryVector(enc, query), DefaultResults), DefaultResults);
    PromptWithoutContext(query);
  }

  /** End to end: after a load into an empty collection, every context a
      search of it yields is a chunk of some transcript of the corpus. */
  lemma ContextIsCorpusChunk(c: Collection, entries: seq<DirEntry>, enc: Encoder, search: Searcher, query: string, limit: int)
    requires NumEntities(c) == 0
    requires var loaded := LoadTranscripts(c, entries, enc).coll;
      HitsFromCollection(loaded, search(loaded, QueryVector(enc, query), limit), limit)
    ensures var loaded := LoadTranscripts(c, entries, enc).coll;
      var r := GetRelevantContext(loaded, enc, search, query, limit);
      forall i :: 0 <= i < |r| ==> r[i] in CorpusChunks(entries)
  {
    var loaded := LoadTranscripts(c, entries, enc).coll;
    LoadStores(c, entries, enc);
    ContextFromCollection(loaded, enc, search, query, limit);
  }
}

=== FILE: seqs.dfy ===
/** Small sequence helpers shared by the retrieval core: the smaller of two
    integers, and Python's `range(start, stop, step)` for a positive step. */
module Seqs {

  function Min(a: int, b: int): (m: int)
    ensures m <= a && m <= b
    ensures m == a || m == b
  {
    if a <= b then a else b
  }

  /** The values `lo, lo + step, lo + 2*step, ...` that stay below `hi`,
      i.e. `list(range(lo, hi, step))` for `step > 0`: all of them in
      [lo, hi), starting with lo when lo < hi; with step 1 they are lo,
      lo+1, ..., hi-1. */
  function Range(lo: int, hi: int, step: int): (r: seq<int>)
    requires step > 0
    ensures lo >= hi <==> r == []
    ensures lo < hi ==> r[0] == lo
    ensures forall k :: 0 <= k < |r| ==> lo <= r[k] < hi
    ensures step == 1 ==> |r| == (if lo < hi then hi - lo else 0)
    ensures step == 1 ==> forall k :: 0 <= k < |r| ==> r[k] == lo + k
    decreases hi - lo
  {
    if lo >= hi then []
    else [lo] + Range(lo + step, hi, step)
  }

  /** A range holds ceil((hi-lo)/step) values: the last one is within one
      step of hi. */
  lemma {:induction false} RangeLength(lo: int, hi: int, step: int)
    requires step > 0 && lo < hi
    ensures var n := |Range(lo, hi, step)|;
      (n - 1) * step < hi - lo <= n * step
    decreases hi - lo
  {
    var n := |Range(lo, hi, step)|;
    if lo + step < hi {
      RangeLength(lo + step, hi, step);
      assert (n - 1) * step == (n - 2) * step + step;
      assert n * step == (n - 1) * step + step;
    } else {
      assert n == 1;
    }
  }

  /** The k-th value of a range is lo + k*step. */
  lemma {:induction false} RangeAt(lo: int, hi: int, step: int, k: int)
    requires step > 0 && 0 <= k < |Range(lo, hi, step)|
    ensures Range(lo, hi, step)[k] == lo + k * step
    decreases k
  {
    if k > 0 {
      RangeAt(lo + step, hi, step, k - 1);
      assert lo + step + (k - 1) * step == lo + k * step;
    }
  }

  /** Neighbouring values of a range are one step apart. */
  lemma {:induction false} RangeNext(lo: int, hi: int, step: int, k: int)
    requires step > 0 && 0 <= k && k + 1 < |Range(lo, hi, step)|
    ensures Range(lo, hi, step)[k + 1] == Range(lo, hi, step)[k] + step
    decreases k
  {
    if k > 0 {
      RangeNext(lo + step, hi, step, k - 1);
    }
  }

  /** Taking one more element of a sequence appends that element. */
  lemma TakeSnoc<T>(s: seq<T>, k: int)
    requires 0 <= k < |s|
    ensures s[..k + 1] == s[..k] + [s[k]]
  {
  }
}

=== FILE: text.dfy ===
/** The Python string operations the retrieval core is built from:
    `s.split(sep)` for a one-character separator, `sep.join(parts)`,
    `s.endswith(suffix)`, and the newline translation of reading a file in
    text mode. Strings are sequences of characters. */
module Text {

  const CarriageReturn: char := '\r'

  /** The pieces of `s` between occurrences of `sep`, as Python's
      `s.split(sep)` returns them. The result is never empty: the empty
      string splits into one empty piece, and a trailing separator leaves
      an empty last piece. No piece contains the separator. */
  function Split(s: string, sep: char): (r: seq<string>)
    ensures |r| >= 1
    ensures forall i :: 0 <= i < |r| ==> sep !in r[i]
    decreases |s|
  {
    if |s| == 0 then [""]
    else
      var rest := Split(s[1..], sep);
      if s[0] == sep then [""] + rest
      else [[s[0]] + rest[0]] + rest[1..]
  }

  /** `sep.join(parts)`: the parts in order with `sep` between neighbours. */
  function Join(parts: seq<string>, sep: string): string
  {
    if |parts| == 0 then ""
    else if |parts| == 1 then parts[0]
    else parts[0] + sep + Join(parts[1..], sep)
  }

  /** `s.endswith(suffix)`. */
  predicate EndsWith(s: string, suffix: string)
  {
    |suffix| <= |s| && s[|s| - |suffix|..] == suffix
  }

  /** Number of occurrences of `c` in `s`. */
  function Occurrences(s: string, c: char): nat
  {
    multiset(s)[c]
  }

  /** `s.endswith(suffix)` holds exactly when `s` is some string followed by `suffix`. */
  lemma EndsWithIff(s: string, suffix: string)
    ensures EndsWith(s, suffix) <==> exists p: string :: s == p + suffix
  {
    if EndsWith(s, suffix) {
      var p := s[..|s| - |suffix|];
      assert s == p + suffix;
    }
    if p: string :| s == p + suffix {
      assert s[|s| - |suffix|..] == suffix;
    }
  }

  /** Splitting yields one more piece than there are separators. */
  lemma {:induction false} SplitCount(s: string, sep: char)
    ensures |Split(s, sep)| == Occurrences(s, sep) + 1
    decreases |s|
  {
    if |s| > 0 {
      SplitCount(s[1..], sep);
      assert s == [s[0]] + s[1..];
      assert multiset(s) == multiset{s[0]} + multiset(s[1..]);
    }
  }

  /** Joining the pieces with the separator gives back the original string. */
  lemma {:induction false} JoinSplit(s: string, sep: char)
    ensures Join(Split(s, sep), [sep]) == s
    decreases |s|
  {
    if |s| > 0 {
      JoinSplit(s[1..], sep);
      var rest := Split(s[1..], sep);
      if s[0] == sep {
        assert Split(s, sep) == [""] + rest;
        assert Join([""] + rest, [sep]) == "" + [sep] + Join(rest, [sep]) by {
          assert ([""] + rest)[1..] == rest;
        }
        assert s == [sep] + s[1..];
      } else {
        var parts := Split(s, sep);
        assert parts == [[s[0]] + rest[0]] + rest[1..];
        if |rest| == 1 {
          assert s == [s[0]] + s[1..];
        } else {
          assert parts[1..] == rest[1..];
          assert Join(rest, [sep]) == rest[0] + [sep] + Join(rest[1..], [sep]);
          assert s == [s[0]] + s[1..];
        }
      }
    }
  }

  /** A string without the separator splits into itself alone. */
  lemma {:induction false} SplitNoSep(p: string, sep: char)
    requires sep !in p
    ensures Split(p, sep) == [p]
    decreases |p|
  {
    if |p| > 0 {
      SplitNoSep(p[1..], sep);
      assert p == [p[0]] + p[1..];
    }
  }

  /** A separator-free piece followed by the separator splits off as the first piece. */
  lemma {:induction false} SplitCons(p: string, sep: char, t: string)
    requires sep !in p
    ensures Split(p + [sep] + t, sep) == [p] + Split(t, sep)
    decreases |p|
  {
    var s := p + [sep] + t;
    if |p| == 0 {
      assert s[1..] == t;
    } else {
      assert s[1..] == p[1..] + [sep] + t;
      SplitCons(p[1..], sep, t);
      assert [p[0]] + p[1..] == p;
    }
  }

  /** Splitting undoes joining, provided no part contains the separator. */
  lemma {:induction false} SplitJoin(parts: seq<string>, sep: char)
    requires |parts| >= 1
    requires forall i :: 0 <= i < |parts| ==> sep !in parts[i]
    ensures Split(Join(parts, [sep]), sep) == parts
    decreases |parts|
  {
    if |parts| == 1 {
      SplitNoSep(parts[0], sep);
    } else {
      SplitJoin(parts[1..], sep);
      SplitCons(parts[0], sep, Join(parts[1..], [sep]));
      assert [parts[0]] + parts[1..] == parts;
    }
  }

  /** A trailing separator adds exactly one empty piece at the end. */
  lemma {:induction false} SplitTrailingSep(s: string, sep: char)
    ensures Split(s + [sep], sep) == Split(s, sep) + [""]
    decreases |s|
  {
    if |s| == 0 {
      assert (s + [sep])[1..] == "";
    } else {
      assert (s + [sep])[1..] == s[1..] + [sep];
      SplitTrailingSep(s[1..], sep);
    }
  }

  /** Joining two non-empty lists of parts puts one separator between them. */
  lemma {:induction false} JoinAppend(a: seq<string>, b: seq<string>, sep: string)
    requires |a| >= 1 && |b| >= 1
    ensures Join(a + b, sep) == Join(a, sep) + sep + Join(b, sep)
    decreases |a|
  {
    if |a| == 1 {
      assert (a + b)[1..] == b;
    } else {
      assert (a + b)[1..] == a[1..] + b;
      JoinAppend(a[1..], b, sep);
    }
  }

  /** Total length of a list of strings. */
  function TotalLength(parts: seq<string>): nat
  {
    if |parts| == 0 then 0 else |parts[0]| + TotalLength(parts[1..])
  }

  /** A join is as long as its parts plus one separator between each neighbouring pair. */
  lemma {:induction false} JoinLength(parts: seq<string>, sep: string)
    requires |parts| >= 1
    ensures |Join(parts, sep)| == TotalLength(parts) + |sep| * (|parts| - 1)
    decreases |parts|
  {
    if |parts| > 1 {
      JoinLength(parts[1..], sep);
    }
  }

  /** The text `f.read()` returns for a file opened with `open(path, 'r')`:
      Python's universal-newlines mode turns every "\r\n" and every lone
      '\r' of the decoded file into '\n'. The result holds no '\r'. */
  function UniversalNewlines(raw: string): (r: string)
    ensures CarriageReturn !in r
    decreases |raw|
  {
    if |raw| == 0 then ""
    else if raw[0] == CarriageReturn then
      if |raw| >= 2 && raw[1] == '\n' then "\n" + UniversalNewlines(raw[2..])
      else "\n" + UniversalNewlines(raw[1..])
    else [raw[0]] + UniversalNewlines(raw[1..])
  }

  /** A file without '\r' is read back exactly as it is. */
  lemma {:induction false} UniversalNewlinesNoCR(raw: string)
    requires CarriageReturn !in raw
    ensures UniversalNewlines(raw) == raw
    decreases |raw|
  {
    if |raw| > 0 {
      UniversalNewlinesNoCR(raw[1..]);
      assert raw == [raw[0]] + raw[1..];
    }
  }

  /** Reading is idempotent: translating an already translated text changes nothing. */
  lemma UniversalNewlinesIdempotent(raw: string)
    ensures UniversalNewlines(UniversalNewlines(raw)) == UniversalNewlines(raw)
  {
    UniversalNewlinesNoCR(UniversalNewlines(raw));
  }

  /** A line ended by "\r\n" or by a lone '\r' is read as that line ended
      by '\n', followed by the translation of the rest. */
  lemma {:induction false} UniversalNewlinesLine(line: string, ending: string, rest: string)
    requires CarriageReturn !in line && '\n' !in line
    requires ending == "\r\n" || ending == "\r" || ending == "\n"
    requires ending == "\r" ==> |rest| == 0 || rest[0] != '\n'
    ensures UniversalNewlines(line + ending + rest) == line + "\n" + UniversalNewlines(rest)
    decreases |line|
  {
    var s := line + ending + rest;
    if |line| == 0 {
      assert s == ending + rest;
      if ending == "\r\n" {
        assert s[2..] == rest;
      } else {
        assert s[1..] == rest;
      }
    } else {
      assert s[0] == line[0];
      assert s[1..] == line[1..] + ending + rest;
      UniversalNewlinesLine(line[1..], ending, rest);
      assert line == [line[0]] + line[1..];
    }
  }

  /** A character found neither in the parts nor in the separator is not in their join. */
  lemma {:induction false} JoinWithout(parts: seq<string>, sep: string, c: char)
    requires c !in sep
    requires forall i :: 0 <= i < |parts| ==> c !in parts[i]
    ensures c !in Join(parts, sep)
    decreases |parts|
  {
    if |parts| > 1 {
      JoinWithout(parts[1..], sep, c);
    }
  }
}

=== FILE: vector_index.dfy ===
/** The vector collection as `PodcastRAG` uses it: a named collection of
    (id, text, embedding) rows with a flag telling whether every inserted
    row has been flushed, the store of named collections that
    `_setup_collection` opens or creates, and the two calls ingestion makes
    on a collection, insert and flush. The sentence encoder is left
    uninterpreted. */
module VectorIndex {

  /** An embedding; its numeric contents are never inspected here. */
  type Vec = seq<real>

  ghost predicate PreservesLength(f: seq<string> -> seq<Vec>)
  {
    forall texts :: |f(texts)| == |texts|
  }

  /** The sentence encoder `encoder.encode(list_of_texts)`: one vector per
      text, in the order of the texts. */
  type Encoder = f: seq<string> -> seq<Vec> | PreservesLength(f)
    witness (texts: seq<string>) => seq(|texts|, _ => [])

  const CollectionName: string := "podcast_chunks"
  const Dimension: int := 384

  /** One stored row. */
  datatype Unit = Unit(id: int, text: string, vector: Vec)

  /** A collection: the dimension it was created with, its rows in
      insertion order, and whether everything inserted has been flushed. */
  datatype Collection = Collection(dim: int, units: seq<Unit>, flushed: bool)

  /** The number of stored rows (`collection.num_entities`). Every inserted
      row counts, flushed or not; whether the database also counts rows not
      yet flushed is its own behaviour, which this model does not decide. */
  function NumEntities(c: Collection): nat
  {
    |c.units|
  }

  /** A call ingestion makes on a collection: an insert of column-wise rows
      (ids, texts, embeddings), or a flush. */
  datatype Call = Insert(ids: seq<int>, texts: seq<string>, vectors: seq<Vec>) | Flush

  /** An insert whose three columns have the same length. */
  predicate WellFormed(call: Call)
  {
    call.Insert? ==> |call.ids| == |call.texts| == |call.vectors|
  }

  predicate AllWellFormed(calls: seq<Call>)
  {
    forall i :: 0 <= i < |calls| ==> WellFormed(calls[i])
  }

  /** The rows of an insert, zipped from its columns. */
  function Rows(ids: seq<int>, texts: seq<string>, vectors: seq<Vec>): seq<Unit>
    requires |ids| == |texts| == |vectors|
  {
    seq(|ids|, i requires 0 <= i < |ids| => Unit(ids[i], texts[i], vectors[i]))
  }

  function Ids(units: seq<Unit>): seq<int>
  {
    seq(|units|, i requires 0 <= i < |units| => units[i].id)
  }

  function Texts(units: seq<Unit>): seq<string>
  {
    seq(|units|, i requires 0 <= i < |units| => units[i].text)
  }

  function Vectors(units: seq<Unit>): seq<Vec>
  {
    seq(|units|, i requires 0 <= i < |units| => units[i].vector)
  }

  /** The effect of one call: an insert appends its rows after the existing
      ones and leaves them unflushed; a flush marks everything flushed. */
  function Apply(c: Collection, call: Call): (r: Collection)
    requires WellFormed(call)
    ensures r.dim == c.dim
    ensures call.Insert? ==>
      && NumEntities(r) == NumEntities(c) + |call.ids|
      && r.units[..NumEntities(c)] == c.units
      && Ids(r.units[NumEntities(c)..]) == call.ids
      && Texts(r.units[NumEntities(c)..]) == call.texts
      && Vectors(r.units[NumEntities(c)..]) == call.vectors
      && !r.flushed
    ensures call.Flush? ==> r.units == c.units && r.flushed
  {
    match call
    case Insert(ids, texts, vectors) =>
      var r := c.(units := c.units + Rows(ids, texts, vectors), flushed := false);
      assert r.units[NumEntities(c)..] == Rows(ids, texts, vectors);
      r
    case Flush => c.(flushed := true)
  }

  /** The effect of a sequence of calls, in order. */
  function ApplyAll(c: Collection, calls: seq<Call>): Collection
    requires AllWellFormed(calls)
    decreases |calls|
  {
    if |calls| == 0 then c else ApplyAll(Apply(c, calls[0]), calls[1..])
  }

  /** Applying calls one after another is applying their concatenation. */
  lemma {:induction false} ApplyAllAppend(c: Collection, a: seq<Call>, b: seq<Call>)
    requires AllWellFormed(a) && AllWellFormed(b)
    ensures AllWellFormed(a + b)
    ensures ApplyAll(c, a + b) == ApplyAll(ApplyAll(c, a), b)
    decreases |a|
  {
    assert AllWellFormed(a + b) by {
      forall i | 0 <= i < |a + b| ensures WellFormed((a + b)[i]) {
        if i < |a| { assert (a + b)[i] == a[i]; } else { assert (a + b)[i] == b[i - |a|]; }
      }
    }
    if |a| == 0 {
      assert a + b == b;
    } else {
      assert (a + b)[0] == a[0];
      assert (a + b)[1..] == a[1..] + b;
      assert AllWellFormed(a[1..]) by {
        forall i | 0 <= i < |a[1..]| ensures WellFormed(a[1..][i]) {
          assert a[1..][i] == a[i + 1];
        }
      }
      ApplyAllAppend(Apply(c, a[0]), a[1..], b);
    }
  }

  /** Applying one more call after a sequence of calls. */
  lemma ApplySnoc(c: Collection, calls: seq<Call>, call: Call)
    requires AllWellFormed(calls) && WellFormed(call)
    ensures AllWellFormed(calls + [call])
    ensures ApplyAll(c, calls + [call]) == Apply(ApplyAll(c, calls), call)
  {
    ApplyAllAppend(c, calls, [call]);
    assert ApplyAll(ApplyAll(c, calls), [call]) == Apply(ApplyAll(c, calls), call);
  }

  /** When `p` is a prefix of `u`, cutting `u` at n <= |p| gives p's cut
      followed by the rest of `u`. */
  lemma PrefixTail(u: seq<Unit>, p: seq<Unit>, n: int)
    requires 0 <= n <= |p| <= |u| && u[..|p|] == p
    ensures u[..n] == p[..n]
    ensures u[n..] == p[n..] + u[|p|..]
  {
    assert u[..n] == u[..|p|][..n];
    assert u[n..] == u[n..|p|] + u[|p|..];
  }

  /** The column projections distribute over concatenation. */
  lemma ProjectConcat(a: seq<Unit>, b: seq<Unit>)
    ensures Ids(a + b) == Ids(a) + Ids(b)
    ensures Texts(a + b) == Texts(a) + Texts(b)
    ensures Vectors(a + b) == Vectors(a) + Vectors(b)
  {
  }

  /** Named collections, as the vector database holds them. */
  type Store = map<string, Collection>

  datatype Opened = Opened(store: Store, coll: Collection)

  /** `_setup_collection`: an existing collection of that name is reused
      as it is, whatever dimension is asked for; otherwise a new, empty
      collection of the given dimension is created under that name. */
  function SetupCollection(store: Store, name: string, dim: int): (r: Opened)
    ensures name in r.store && r.store[name] == r.coll
    ensures r.store.Keys == store.Keys + {name}
    ensures forall other :: other in store && other != name ==> r.store[other] == store[other]
    ensures name in store ==> r.store == store && r.coll == store[name]
    ensures name !in store ==> r.coll.units == [] && r.coll.dim == dim
  {
    if name in store then Opened(store, store[name])
    else
      var c := Collection(dim, [], true);
      Opened(store[name := c], c)
  }

  /** Opening the same name a second time changes nothing and returns the
      collection the first call returned; in particular its rows are kept. */
  lemma SetupReuses(store: Store, name: string, dim: int, dim': int)
    ensures var first := SetupCollection(store, name, dim);
      var second := SetupCollection(first.store, name, dim');
      && second == first
      && NumEntities(second.coll) == NumEntities(first.coll)
  {
  }
}
